=== FILE: README.md ===
# Chirpy authentication and chirp core in Dafny

Chirpy is a small social-posting HTTP service written in Go. This project
models four parts of it and proves properties about them:

- **`internal/auth`:** how it reads the bearer credential from the
  `Authorization` header, how it renders a refresh token from 32 random
  bytes, and how it issues and accepts HS256 access tokens (JWTs) carrying
  a user id.
- **`internal/database`:** the three queries on the `refresh_tokens` table
  (create, look up, revoke).
- **`misc.go`:** the profanity filter, the refresh endpoint (a refresh
  token in, a one-hour access token out) and the revoke endpoint.
- **`chirps.go`:** posting a chirp (at most 140 bytes, filtered, then
  stored) and listing all chirps.

Modules, one per file:

- `Wrappers`: `Option` and `Result`.
- `GoStrings`: the parts of Go's `strings`, `unicode` and `unicode/utf8`
  that the code calls. `TrimSpace`, `Fields`, `Join`, `ToLower` and byte
  length are modelled over strings of runes.
- `Hex`: `encoding/hex`.
- `Uuid`: `uuid.Parse` and `UUID.String` of `github.com/google/uuid`.
- `GoTime`: instants and durations in nanoseconds.
- `Auth`: `internal/auth/auth.go`.
- `Database`: `internal/database/auth.sql.go`, with the table kept as a
  map from token to row in the class `Queries`.
- `Misc`: `misc.go`.
- `Chirps`: `chirps.go`.

Behaviours of the code a reader may not expect:

- **Refresh at the expiry instant:** the refresh endpoint tests
  `time.Now().After(expiresAt)`, so a token is still accepted at the exact
  instant it expires (`Misc.RefreshAtExpiry`).
- **Repeated revoke:** revoking re-stamps `revoked_at` and `updated_at`
  every time, including on an already revoked token. Only the last revoke
  shows (`RevokeTwice`).
- **Bearer prefix:** the prefix `"Bearer "` is matched case-sensitively
  and must include its space. The general rule of section 2.1 of RFC 6750
  allows other spellings of the scheme; this code does not.
- **`revoked_at` on create:** `CreateRefreshToken` stores whatever
  `revoked_at` its caller passes. A NULL keeps no time and reads back as
  Go's zero time (`Database.Stored`).
- **Access-token expiry:** a token is accepted while `now < exp`, where
  `exp` is the expiry cut to a whole second (a JWT NumericDate). So a token
  can expire up to one second earlier than its nominal lifetime
  (`ValidateMakeJWT`).

## Model

| member | source | states |
|---|---|---|
| GoStrings.TrimSpace | internal/auth/auth.go:87 | the result starts and ends with non-white-space, is empty exactly when the input is all white space, and is no longer than the input |
| GoStrings.TrimSpaceParts | internal/auth/auth.go:87 | the input is the trimmed string with runs of white space only before and after it |
| GoStrings.TrimSpaceOfTrimmed | internal/auth/auth.go:87 | trimming a string that is already trimmed leaves it unchanged |
| GoStrings.IsSpaceRunes | internal/auth/auth.go:87 | among ASCII runes exactly space, tab, newline, vertical tab, form feed and carriage return are white space, and no rune above U+3000 is |
| GoStrings.Fields | misc.go:26 | every field is non-empty and holds no white space |
| GoStrings.FieldsEmpty | misc.go:26 | there are no fields exactly when the input is all white space |
| GoStrings.FieldsSeparators | misc.go:26 | the input is its fields in order with white-space runs between them, non-empty between two fields |
| GoStrings.FieldsOfJoin | misc.go:26-37 | splitting words joined by single spaces gives back the same words |
| GoStrings.Join | misc.go:37 | no strings join to the empty string, and otherwise the result starts with the first string |
| GoStrings.JoinLength | misc.go:37 | the length of the result is the strings' total length plus one separator between each pair of neighbours |
| GoStrings.JoinIsTrimmed | misc.go:37 | words joined by spaces neither start nor end with white space |
| GoStrings.JoinOfFieldsNoLonger | misc.go:26-37 | re-joining fields that are each no longer in bytes gives a string no longer in bytes than the original |
| GoStrings.LowerRune | misc.go:30 | A-Z lower to a-z; a rune lowers to ASCII only if it is ASCII, U+0130 or U+212A; every result is a letter a-z or the rune itself |
| GoStrings.Lower | misc.go:30 | the result has one rune per input rune, each the lowered input rune |
| GoStrings.LowerIsWord | misc.go:30 | lowering a word gives a given lower-case ASCII word exactly when the two match rune by rune up to case (U+212A counting as k, U+0130 as i) |
| GoStrings.RuneBytes | chirps.go:33 | a rune takes 1 byte below U+0080, 2 below U+0800, 3 below U+10000 and 4 above, and an ASCII rune is its own code |
| GoStrings.Utf8 | chirps.go:33 | a string takes at least one byte per rune |
| GoStrings.ByteLen | chirps.go:33 | `len` of a string is at least its number of runes |
| GoStrings.Utf8OfRune | chirps.go:33 | a one-rune string is exactly that rune's UTF-8 encoding, so with Utf8Concat every string's `len` is the sum of its runes' 1 to 4 byte counts |
| GoStrings.Utf8Concat | chirps.go:33 | the bytes of a concatenation are the concatenation of the bytes |
| GoStrings.Utf8OfAscii | chirps.go:33 | an ASCII string is one byte per rune, equal to the rune's code |
| Hex.HexDigit | internal/auth/auth.go:104 | nibble d is written as the d-th character of "0123456789abcdef" |
| Hex.HexValue | internal/auth/auth.go:104 | a rune has a value exactly when it is a hexadecimal digit of either case, and the value is below 16 (with HexDigit and HexValueOfDigit, '0'-'9' and 'a'-'f' are worth 0-15 in order) |
| Hex.HexValueOfUpper | internal/auth/auth.go:66 | an upper-case digit A-F is worth 10-15, the same as its lower-case form |
| Hex.HexValueOfDigit | internal/auth/auth.go:104 | reading a written digit gives back its nibble |
| Hex.Encode | internal/auth/auth.go:104 | n bytes become 2n lower-case hexadecimal digits |
| Hex.Decode | internal/auth/auth.go:104 | a successful decode yields half as many bytes as there are digits |
| Hex.DecodeEncode | internal/auth/auth.go:104 | decoding an encoding gives back the bytes |
| Hex.EncodeInjective | internal/auth/auth.go:104 | different byte strings have different encodings |
| Uuid.ToString | internal/auth/auth.go:35 | the text form is 36 ASCII characters with dashes at positions 8, 13, 18 and 23 |
| Uuid.Parse | internal/auth/auth.go:66 | parsing succeeds only on inputs of 32, 36, 38 or 45 bytes |
| Uuid.ParseString | internal/auth/auth.go:66 | a string parses only when it takes 32, 36, 38 or 45 bytes |
| Uuid.ParseToString | internal/auth/auth.go:35-66 | parsing the text form of a UUID gives back that UUID |
| Uuid.ParsedIsToString | internal/auth/auth.go:66 | a 36-byte input that parses to a UUID is that UUID's text form up to the case of its letters |
| GoTime.AfterIsStrict | misc.go:54 | no instant is after itself, and of two distinct instants exactly one is after the other |
| GoTime.TruncateToSecond | internal/auth/auth.go:33-34 | the result is the whole second at or before the instant |
| Auth.HeaderValue | internal/auth/auth.go:76 | the first value of the header, or "" when the header is absent or has no values |
| Auth.GetBearerToken | internal/auth/auth.go:75-94 | "header missing" exactly when the header is empty; "not bearer" exactly when it lacks the prefix; "token empty" exactly when only white space follows the prefix; otherwise a non-empty trimmed token surrounded only by white space after the prefix |
| Auth.TrimSpaceOfPadded | internal/auth/auth.go:86-87 | trimming white space off a padded trimmed word gives back the word |
| Auth.BearerTokenOfHeader | internal/auth/auth.go:75-94 | any header of the form prefix, spaces, trimmed token, spaces yields that token |
| Auth.BearerExamples | internal/auth/auth.go:76-91 | no header, an empty header, a bare "Bearer", a lower-case scheme, another scheme and a blank token are each refused with their error |
| Auth.MakeRefreshToken | internal/auth/auth.go:97-105 | a failed random read is the only error; otherwise 64 lower-case hexadecimal digits that decode back to the 32 random bytes |
| Auth.RefreshTokensDistinct | internal/auth/auth.go:97-105 | different random bytes give different refresh tokens |
| Auth.MakeJWT | internal/auth/auth.go:30-39 | an HS256 token signed with the secret, issuer "chirpy", the user id's dashed lower-case text form as subject (which parses back to the user id), issued-at and expiry within one second below now and now plus the lifetime, and no not-before |
| Auth.ValidateJWT | internal/auth/auth.go:41-72 | a token is accepted exactly when it parses, its method is HMAC, its signature is the secret's MAC of its claims, it is before its expiry and not before its not-before, and its subject is a UUID; the result is that UUID |
| Auth.ValidateMakeJWT | internal/auth/auth_test.go:11-26 | a made token validates under the same secret to the same user until its whole-second expiry, and is reported expired from then on |
| Auth.WrongSecretRejected | internal/auth/auth_test.go:47-62 | a token made with one secret fails the signature check under any other |
| Auth.ExpiredAfterLifetime | internal/auth/auth_test.go:28-45 | once the nominal lifetime has passed the token is reported expired |
| Auth.ShortLivedTokenExpires | internal/auth/auth_test.go:28-45 | a 1 ms token checked 10 ms later is refused |
| Auth.RejectionCases | internal/auth/auth_test.go:64-68 | malformed text, a non-HMAC method and a non-UUID subject are each refused |
| Database.Stored | internal/database/auth.sql.go:30-50 | a stored NullTime keeps its validity; a valid one is kept as given and a NULL holds the zero time |
| Database.Insert | internal/database/auth.sql.go:16-53 | refused exactly when the token is already a key; otherwise one new key, all old rows kept, and the new row holds the six given fields (a NULL revoked-at as the zero time); rows stay under their own token |
| Database.Lookup | internal/database/auth.sql.go:55-71 | a row exactly when the token is a key, and then the row under that key; otherwise no rows |
| Database.Revoke | internal/database/auth.sql.go:73-88 | same keys; only the row of the token changes, and only its revoked-at and updated-at; rows stay under their own token |
| Database.RevokeMissingIsNoOp | internal/database/auth.sql.go:73-88 | revoking an unknown token changes nothing |
| Database.RevokeTwice | internal/database/auth.sql.go:73-88 | two revokes of one token equal the second one alone |
| Database.RevokedStaysRevoked | internal/database/auth.sql.go:16-88 | a revoked row stays revoked under any insert and any revoke that passes a time |
| Database.Queries.constructor | internal/database/auth.sql.go:16-88 | the table starts empty |
| Database.Queries.CreateRefreshToken | internal/database/auth.sql.go:43-53 | the table becomes the insert's result, or stays as it was with the unique-key error |
| Database.Queries.GetRefreshToken | internal/database/auth.sql.go:59-71 | returns the stored row for the token with all six fields, or no rows when absent |
| Database.Queries.RevokeRefreshToken | internal/database/auth.sql.go:85-88 | the table becomes the revoke's result and no error is reported |
| Misc.Censor | misc.go:29-33 | a profane word becomes "****", any other word is kept, and the result is never profane |
| Misc.ProfaneMatch | misc.go:25-30 | a word is profane exactly when it matches one of "kerfuffle", "sharbert", "fornax" rune by rune up to case |
| Misc.ProfaneLength | misc.go:25-30 | a profane word has 6, 8 or 9 runes |
| Misc.CensorByScan | misc.go:29-34 | the scan over the word list, masking on the first match, gives the same as Censor |
| Misc.CleanProfanity | misc.go:24-38 | the loop over the fields and the word list computes CleanText |
| Misc.CleanTextWords | misc.go:24-38 | the output's words are the input's words in order, with each profane one replaced by "****" and the rest unchanged |
| Misc.CleanTextTrimmed | misc.go:37 | the output has no leading or trailing white space |
| Misc.MaskIsClean | misc.go:25-31 | "****" is not itself profane |
| Misc.CleanTextIdempotent | misc.go:24-38 | filtering twice is the same as filtering once |
| Misc.CleanSingleWord | misc.go:29-33 | a single word is masked exactly when its lower-case form is on the list |
| Misc.CensorNoLonger | misc.go:31 | masking never lengthens a word in bytes |
| Misc.CleanTextNoLonger | misc.go:24-38 | the filtered text is never longer in bytes than the input |
| Misc.PunctuatedWordKept | misc.go:30 | "kerfuffle!" is not masked |
| Misc.CapitalisedWordMasked | misc.go:30 | "Kerfuffle" is masked |
| Misc.CheckRefreshToken | misc.go:48-62 | accepted exactly when the row exists, the token has not expired and it is not revoked; the errors are checked in that order with their messages; the result is the row's user |
| Misc.RefreshAtExpiry | misc.go:54-57 | an unrevoked token is accepted at the exact instant it expires and refused as expired one nanosecond later |
| Misc.RefreshHandler | misc.go:41-79 | no bearer token gives 401; otherwise the guards give 401 with their message, and a valid token gives 200 with a one-hour access token for the row's user; nothing is stored |
| Misc.RefreshIssuesTokenForUser | misc.go:54-64 | a successful refresh yields a token that validates to the row's user for the next hour (to the whole second) |
| Misc.RevokeParams | misc.go:89-95 | the revoke names the token, with a valid revoked-at and an updated-at both equal to now |
| Misc.RevokeHandler | misc.go:82-103 | no bearer token gives 401 and no change; otherwise 204, and the token's row is revoked and updated at now |
| Misc.RevokedTokenNeverRefreshes | misc.go:48-103 | after the handler revokes a token, refreshing with it is refused at any later time, whatever creates and handler revokes follow; a token that had no row must not be created again later |
| Misc.ReplayKeepsRevoked | misc.go:82-103 | a revoked row stays revoked through any sequence of creates and handler revokes |
| Misc.ReplayKeepsMissing | misc.go:82-103 | a token without a row gains none through creates of other tokens and handler revokes |
| Chirps.ChirpTable.constructor | chirps.go:51 | the chirp store starts empty |
| Chirps.ChirpTable.CreateChirp | chirps.go:51 | the given chirp is appended to the store and returned |
| Chirps.ChirpTable.GetAllChirps | chirps.go:75 | every stored chirp, in the order of creation |
| Chirps.AcceptBody | chirps.go:33-38 | refused with "Chirp is too long" exactly when the body exceeds 140 bytes; otherwise the filtered body, which also fits in 140 bytes |
| Chirps.ChirpsHandler | chirps.go:13-64 | an undecodable request gives 400 and nothing stored; an over-long body gives 400 and nothing stored; otherwise one chirp is appended with the filtered body, the creation time as both timestamps and the parsed user id, and 201 echoes it |
| Chirps.LengthBoundary | chirps.go:33 | a 140-byte body is accepted and a 141-byte one is refused |
| Chirps.Append | chirps.go:83 | appending to a slice makes it non-nil, with the element added at the end |
| Chirps.GetAllChirpsAsWritten | chirps.go:66-93 | 200 with one response per stored chirp, in creation order, fields copied; the slice is nil exactly when the store is empty |
| Chirps.GetAllChirpsHandler | chirps.go:66-93 | 200 with a non-nil slice holding one response per stored chirp, in creation order, with every field copied |

## Left out

- Password hashing (`HashPassword` and `CheckPasswordHash`): bcrypt is a
  foreign cryptographic library.
- HMAC-SHA256, base64url and JSON inside a JWT: a signature is the symbolic
  `Mac(alg, claims, key)`. A token string is either a decoded token or
  unparseable text; the byte-level compact serialization is not modelled.
- Auth.WrongSecretRejected: holds for the symbolic MAC, which is one-to-one
  in its key, but not for HMAC. HMAC pads a key with zero bytes to the
  block size and replaces a key longer than 64 bytes by its SHA-256
  digest. So in Go a token made with secret "k" also validates under
  "k" followed by a zero byte, and a long secret is interchangeable with
  its digest.
- `Auth.MakeJWT`: the signing error and the 500 that `refreshHandler`
  answers with are not modelled. The HMAC signing of a byte key does not
  fail.
- `Auth.MakeJWT`: `time.Now()` is read twice in the source, but the model
  passes one instant `now` for both dates.
- `Auth.ValidateJWT`: the checks `!token.Valid` and the claims type
  assertion are not modelled; the library never lets either fail after a
  nil error.
- `Auth.ValidateJWT`: the audience, issuer, JWT-ID and leeway options of
  the library are not modelled; the code sets none of them.
- `crypto/rand` and the clock: the random bytes (`Auth.RandomRead`) and the
  current instant (`now`) are parameters.
- HTTP plumbing (`respondWithJSON`, `respondWithError`, response writing,
  header canonicalisation): replies are the `Misc.Reply` values. JSON
  decoding of a chirp request is an `Option`.
- SQL execution: connection and driver errors, Postgres timestamp
  precision, and the foreign key from `refresh_tokens` and `chirps` to
  users. A duplicate token is refused as `UniqueViolation`, but the
  schema declaring that key is not part of this model.
- The SQL of `CreateChirp` and `GetAllChirps` is not among the files
  shown. The model assumes that `CreateChirp` stores the row as given and
  returns it (`Chirps.ChirpTable.CreateChirp`), and that `GetAllChirps`
  returns the rows in insertion order (`Chirps.ChirpTable.GetAllChirps`). The 500 replies for their errors
  are not modelled.
- `Chirps.ChirpsHandler`: `uuid.MustParse` panics on a bad user id. The
  model requires a parseable id for requests that pass the length check,
  rather than modelling the panic.
- `Chirps.ChirpsHandler`: `uuid.New()` is a parameter (`chirpID`).
- `GoStrings.LowerRune`: a rune whose lower case is not ASCII maps to
  itself, not to its real lower case. The filter only compares lowered
  words with ASCII words, so its result is the same as with Go's
  `ToLower`.
- Invalid UTF-8: strings are sequences of Unicode scalar values.
- `users.go`, `webhooks.go`, `metrics.go`, `config.go` and `main.go`:
  outside the modelled core. `auth.GetAPIKey`, which `webhooks.go` calls,
  is not part of this model. The code that creates refresh tokens is not
  among the files shown.

## Findings

| source | as written | input that shows it | evidently intended | confidence | as-written member | corrected member |
|---|---|---|---|---|---|---|
| chirps.go:81-92 | `response` starts as a nil slice, so with no chirps the list endpoint answers `null` | an empty chirps table | an empty JSON array `[]` | not executed | Chirps.GetAllChirpsAsWritten | Chirps.GetAllChirpsHandler |

=== FILE: auth.dfy ===
/** internal/auth: bearer-credential extraction, refresh-token rendering and
    the access-token (JWT) claims and acceptance rule. */
module Auth {
  import opened Wrappers
  import opened GoStrings
  import opened GoTime
  import Hex
  import opened Uuid

  // ------------------------------------------------------------ GetBearerToken

  /** `http.Header`: canonical header name to its values. */
  type Header = map<string, seq<string>>

  /** `Header.Get`: the first value of the header, or "" when there is none. */
  function HeaderValue(h: Header, name: string): (v: string)
    ensures name !in h || h[name] == [] ==> v == ""
    ensures name in h && h[name] != [] ==> v == h[name][0]
  {
    if name in h && |h[name]| > 0 then h[name][0] else ""
  }

  /** The scheme prefix, matched case-sensitively and with its trailing space. */
  const BearerPrefix: string := "Bearer "

  datatype BearerError =
    | HeaderMissing   // "authorization header is missing"
    | NotBearer       // "authorization header must start with 'Bearer '"
    | TokenEmpty      // "token is empty"

  /** `GetBearerToken`: the credential of an `Authorization: Bearer <token>`
      header (a case-sensitive form of section 2.1 of RFC 6750). */
  function GetBearerToken(headers: Header): (r: Result<string, BearerError>)
    ensures var h := HeaderValue(headers, "Authorization");
      && (r == Err(HeaderMissing) <==> h == "")
      && (r == Err(NotBearer) <==> h != "" && !(BearerPrefix <= h))
      && (r == Err(TokenEmpty) <==> BearerPrefix <= h && AllSpace(h[|BearerPrefix|..]))
      && (r.Ok? ==> r.value != [] && Trimmed(r.value)
                    && exists a, b :: AllSpace(a) && AllSpace(b) && h == BearerPrefix + a + r.value + b)
  {
    var h := HeaderValue(headers, "Authorization");
    if h == "" then Err(HeaderMissing)
    else if !(BearerPrefix <= h) then Err(NotBearer)
    else
      var token := TrimSpace(h[|BearerPrefix|..]);
      if token == "" then Err(TokenEmpty)
      else
        BearerShape(h, token);
        Ok(token)
  }

  lemma BearerShape(h: string, token: string)
    requires BearerPrefix <= h && token == TrimSpace(h[|BearerPrefix|..])
    ensures exists a, b :: AllSpace(a) && AllSpace(b) && h == BearerPrefix + a + token + b
  {
    var a, b := TrimSpaceParts(h[|BearerPrefix|..]);
    PaddedAfterPrefix(BearerPrefix, h, a, token, b);
  }

  lemma PaddedAfterPrefix(p: string, h: string, a: string, t: string, b: string)
    requires p <= h && h[|p|..] == a + t + b && AllSpace(a) && AllSpace(b)
    ensures exists a', b' :: AllSpace(a') && AllSpace(b') && h == p + a' + t + b'
  {
    assert h == p + h[|p|..];
    assert h == p + a + t + b;
  }

  /** TrimSpace removes exactly the white space around a trimmed word. */
  lemma {:induction false} TrimSpaceOfPadded(a: string, t: string, b: string)
    requires AllSpace(a) && AllSpace(b) && t != [] && Trimmed(t)
    ensures TrimSpace(a + t + b) == t
  {
    var x := a + t + b;
    assert x[|a|] == t[0];
    assert x[|x| - 1 - |b|] == t[|t| - 1];
    var n := LeadingSpaces(x);
    assert n == |a| by {
      assert forall k :: 0 <= k < |a| ==> x[k] == a[k];
    }
    var m := TrailingSpaces(x);
    assert m == |b| by {
      assert forall k :: |x| - |b| <= k < |x| ==> x[k] == b[k - (|x| - |b|)];
    }
    assert x[|a|..|x| - |b|] == t;
  }

  /** Any header "Bearer " + padding + token + padding yields that token, so
      the token GetBearerToken returns is determined by the header. */
  lemma BearerTokenOfHeader(headers: Header, a: string, t: string, b: string)
    requires AllSpace(a) && AllSpace(b) && t != [] && Trimmed(t)
    requires HeaderValue(headers, "Authorization") == BearerPrefix + a + t + b
    ensures GetBearerToken(headers) == Ok(t)
  {
    var h := BearerPrefix + a + t + b;
    assert h[|BearerPrefix|..] == a + t + b;
    TrimSpaceOfPadded(a, t, b);
  }

  /** One refused header for each error. */
  lemma BearerExamples()
    ensures GetBearerToken(map[]) == Err(HeaderMissing)
    ensures GetBearerToken(map["Authorization" := [""]]) == Err(HeaderMissing)
    ensures GetBearerToken(map["Authorization" := ["Bearer"]]) == Err(NotBearer)
    ensures GetBearerToken(map["Authorization" := ["bearer x"]]) == Err(NotBearer)
    ensures GetBearerToken(map["Authorization" := ["Basic abc"]]) == Err(NotBearer)
    ensures GetBearerToken(map["Authorization" := ["Bearer  \t "]]) == Err(TokenEmpty)
  {
    var h := "Bearer  \t ";
    assert h[|BearerPrefix|..] == " \t ";
    assert "Bearer" != BearerPrefix[..6] + [' '];
    assert "bearer x"[0] != BearerPrefix[0];
    assert "Basic abc"[1] != BearerPrefix[1];
  }

  // ---------------------------------------------------------- MakeRefreshToken

  /** What `rand.Read` did with the 32-byte buffer. */
  datatype RandomRead = Filled(bytes: seq<byte>) | ReadFailed

  datatype RefreshTokenError = EntropyUnavailable

  /** `MakeRefreshToken`: 32 random bytes as 64 lower-case hexadecimal digits. */
  function MakeRefreshToken(random: RandomRead): (r: Result<string, RefreshTokenError>)
    requires random.Filled? ==> |random.bytes| == 32
    ensures r.Err? <==> random.ReadFailed?
    ensures r.Ok? ==> |r.value| == 64 && forall i :: 0 <= i < 64 ==> Hex.IsLowerHexDigit(r.value[i])
    ensures r.Ok? ==> Hex.Decode(r.value) == Some(random.bytes)
  {
    match random
    case ReadFailed => Err(EntropyUnavailable)
    case Filled(bytes) =>
      Hex.DecodeEncode(bytes);
      Ok(Hex.Encode(bytes))
  }

  /** Distinct random buffers give distinct refresh tokens. */
  lemma RefreshTokensDistinct(x: seq<byte>, y: seq<byte>)
    requires |x| == 32 && |y| == 32 && x != y
    ensures MakeRefreshToken(Filled(x)) != MakeRefreshToken(Filled(y))
  {
    if Hex.Encode(x) == Hex.Encode(y) {
      Hex.EncodeInjective(x, y);
    }
  }

  // ------------------------------------------------------ MakeJWT / ValidateJWT

  const Issuer: string := "chirpy"

  /** The HMAC family (`*jwt.SigningMethodHMAC`). */
  const HmacAlgs: set<string> := {"HS256", "HS384", "HS512"}

  /** Every `alg` name the JWT library has a signing method for. */
  const KnownAlgs: set<string> := HmacAlgs +
    {"RS256", "RS384", "RS512", "PS256", "PS384", "PS512", "ES256", "ES384", "ES512", "EdDSA", "none"}

  /** The registered claims of section 4.1 of RFC 7519 that the core reads or
      writes; NumericDate values are kept as instants. */
  datatype Claims = Claims(
    issuer: string,
    subject: string,
    issuedAt: Option<Time>,
    expiresAt: Option<Time>,
    notBefore: Option<Time>)

  /** A signature. `Mac(alg, claims, key)` stands for the HMAC of the header and
      claims under `key` (section 3.2 of RFC 7518). As a constructor it is
      one-to-one in all three, which HMAC is not in its key: keys that agree
      after zero padding, or a long key and its digest, sign alike. */
  datatype Signature = Mac(alg: string, claims: Claims, key: string) | OtherSignature(bytes: seq<byte>)

  datatype Jwt = Jwt(alg: string, claims: Claims, signature: Signature)

  /** A token string: either one the library can split and decode, or one it
      rejects as malformed. */
  datatype TokenText = Compact(jwt: Jwt) | Unparseable(text: string)

  /** `MakeJWT`: an HS256 token for `userID`, issued at `now`, expiring
      `expiresIn` later; both dates are cut to whole seconds. */
  function MakeJWT(userID: UUID, tokenSecret: string, expiresIn: Duration, now: Time): (t: TokenText)
    ensures t.Compact? && t.jwt.alg == "HS256"
    ensures t.jwt.signature == Mac("HS256", t.jwt.claims, tokenSecret)
    ensures var c := t.jwt.claims;
      && c.issuer == Issuer && c.subject == ToString(userID) && ParseString(c.subject) == Some(userID)
      && c.issuedAt.Some? && c.issuedAt.value <= now < c.issuedAt.value + Second
      && c.expiresAt.Some? && c.expiresAt.value <= now + expiresIn < c.expiresAt.value + Second
      && c.notBefore.None?
  {
    ParseToString(userID);
    var claims := Claims(Issuer, ToString(userID), Some(TruncateToSecond(now)),
                         Some(TruncateToSecond(now + expiresIn)), None);
    Compact(Jwt("HS256", claims, Mac("HS256", claims, tokenSecret)))
  }

  datatype JwtError =
    | Malformed                         // the string does not split and decode
    | SigningMethodUnavailable          // no signing method for the `alg` name
    | UnexpectedSigningMethod(alg: string)  // the key function's HMAC check
    | SignatureInvalid
    | InvalidClaims(expired: bool, notYetValid: bool)
    | InvalidSubject                    // `sub` is not a UUID

  /** `ValidateJWT`: the subject of a token signed with `tokenSecret` by an
      HMAC method, not expired and not before its `nbf` at `now`. The error
      case stands for the pair (uuid.Nil, error). */
  function ValidateJWT(tokenString: TokenText, tokenSecret: string, now: Time): (r: Result<UUID, JwtError>)
    ensures r.Ok? <==>
      && tokenString.Compact?
      && tokenString.jwt.alg in HmacAlgs
      && tokenString.jwt.signature == Mac(tokenString.jwt.alg, tokenString.jwt.claims, tokenSecret)
      && (tokenString.jwt.claims.expiresAt.Some? ==> now < tokenString.jwt.claims.expiresAt.value)
      && (tokenString.jwt.claims.notBefore.Some? ==> tokenString.jwt.claims.notBefore.value <= now)
      && ParseString(tokenString.jwt.claims.subject).Some?
    ensures r.Ok? ==> ParseString(tokenString.jwt.claims.subject) == Some(r.value)
  {
    match tokenString
    case Unparseable(_) => Err(Malformed)
    case Compact(Jwt(alg, claims, signature)) =>
      if alg !in KnownAlgs then Err(SigningMethodUnavailable)
      else if alg !in HmacAlgs then Err(UnexpectedSigningMethod(alg))
      else if signature != Mac(alg, claims, tokenSecret) then Err(SignatureInvalid)
      else
        var expired := claims.expiresAt.Some? && !(now < claims.expiresAt.value);
        var early := claims.notBefore.Some? && now < claims.notBefore.value;
        if expired || early then Err(InvalidClaims(expired, early))
        else
          match ParseString(claims.subject)
          case None => Err(InvalidSubject)
          case Some(id) => Ok(id)
  }

  /** Round trip: a token made with a secret validates under that secret to the
      user it was made for exactly until its whole-second expiry, and is
      reported expired from then on. */
  lemma {:induction false} ValidateMakeJWT(userID: UUID, secret: string, expiresIn: Duration, issued: Time, now: Time)
    ensures var expiry := TruncateToSecond(issued + expiresIn);
      ValidateJWT(MakeJWT(userID, secret, expiresIn, issued), secret, now)
        == if now < expiry then Ok(userID) else Err(InvalidClaims(true, false))
  {
    ParseToString(userID);
  }

  /** Key isolation: a token made with one secret fails the signature check
      under any other, whatever the time. */
  lemma WrongSecretRejected(userID: UUID, secret: string, other: string, expiresIn: Duration, issued: Time, now: Time)
    requires other != secret
    ensures ValidateJWT(MakeJWT(userID, secret, expiresIn, issued), other, now) == Err(SignatureInvalid)
  {
  }

  /** Once the lifetime has passed the token is expired, even though the
      stored expiry was cut to a whole second. */
  lemma ExpiredAfterLifetime(userID: UUID, secret: string, expiresIn: Duration, issued: Time, now: Time)
    requires now >= issued + expiresIn
    ensures ValidateJWT(MakeJWT(userID, secret, expiresIn, issued), secret, now) == Err(InvalidClaims(true, false))
  {
  }

  /** A token with a one-millisecond lifetime, checked ten milliseconds later. */
  lemma ShortLivedTokenExpires(userID: UUID, secret: string, issued: Time)
    ensures ValidateJWT(MakeJWT(userID, secret, Millisecond, issued), secret, issued + 10 * Millisecond).Err?
  {
    ExpiredAfterLifetime(userID, secret, Millisecond, issued, issued + 10 * Millisecond);
  }

  /** Every failure path returns an error: an unparseable string, a signing
      method outside the HMAC family, and a subject that is not a UUID. */
  lemma RejectionCases(t: TokenText, secret: string, now: Time)
    ensures t.Unparseable? ==> ValidateJWT(t, secret, now) == Err(Malformed)
    ensures t.Compact? && t.jwt.alg !in HmacAlgs ==> ValidateJWT(t, secret, now).Err?
    ensures t.Compact? && ParseString(t.jwt.claims.subject).None? ==> ValidateJWT(t, secret, now).Err?
  {
  }
}

=== FILE: chirps.dfy ===
/** chirps.go: posting a chirp (length check, profanity filter, insert) and
    listing all chirps. */
module Chirps {
  import opened Wrappers
  import opened GoStrings
  import opened GoTime
  import opened Uuid
  import opened Misc

  /** The longest accepted body, in bytes. */
  const MaxChirpLength := 140

  /** The decoded request body of `chirpsHandler`. */
  datatype ChirpRequest = ChirpRequest(body: string, userID: string)

  /** A row of the chirps table; also the parameters of its INSERT. */
  datatype Chirp = Chirp(id: UUID, createdAt: Time, updatedAt: Time, body: string, userID: UUID)

  /** The JSON shape a chirp is answered with. */
  datatype ChirpResponse = ChirpResponse(id: UUID, createdAt: Time, updatedAt: Time, body: string, userID: UUID)

  function ToResponse(c: Chirp): ChirpResponse {
    ChirpResponse(c.id, c.createdAt, c.updatedAt, c.body, c.userID)
  }

  /** The chirps table, in insertion order. */
  class ChirpTable {
    var rows: seq<Chirp>

    constructor ()
      ensures rows == []
    {
      rows := [];
    }

    /** `CreateChirp`: stores the row as given and returns it. */
    method CreateChirp(params: Chirp) returns (chirp: Chirp)
      modifies this
      ensures rows == old(rows) + [params] && chirp == params
    {
      rows := rows + [params];
      chirp := params;
    }

    /** `GetAllChirps`: every stored row, in the order it was created. */
    method GetAllChirps() returns (chirps: seq<Chirp>)
      ensures chirps == rows
    {
      chirps := rows;
    }
  }

  /** The body a request would store: refused when longer than 140 bytes
      (checked on the raw body), otherwise its filtered form, which is never
      longer than the limit either. */
  function AcceptBody(body: string): (r: Result<string, string>)
    ensures r.Err? <==> ByteLen(body) > MaxChirpLength
    ensures r.Err? ==> r.error == "Chirp is too long"
    ensures r.Ok? ==> r.value == CleanText(body) && ByteLen(r.value) <= MaxChirpLength
  {
    if ByteLen(body) > MaxChirpLength then Err("Chirp is too long")
    else
      CleanTextNoLonger(body);
      Ok(CleanText(body))
  }

  /** `chirpsHandler`: a decoded request whose body is at most 140 bytes is
      stored filtered, created and updated at the same instant, and answered
      201; otherwise 400 and nothing is stored. `uuid.MustParse` of the user
      id panics on a bad id, so a good id is required of accepted requests. */
  method ChirpsHandler(db: ChirpTable, req: Option<ChirpRequest>, chirpID: UUID, now: Time)
    returns (reply: Reply<ChirpResponse>)
    requires req.Some? && ByteLen(req.value.body) <= MaxChirpLength ==> ParseString(req.value.userID).Some?
    modifies db
    ensures req.None? ==>
      reply == ErrorJson(StatusBadRequest, "Invalid request payload") && db.rows == old(db.rows)
    ensures req.Some? ==>
      match AcceptBody(req.value.body)
      case Err(message) => reply == ErrorJson(StatusBadRequest, message) && db.rows == old(db.rows)
      case Ok(body) =>
        var chirp := Chirp(chirpID, now, now, body, ParseString(req.value.userID).value);
        db.rows == old(db.rows) + [chirp] && reply == Json(StatusCreated, ToResponse(chirp))
  {
    if req.None? {
      return ErrorJson(StatusBadRequest, "Invalid request payload");
    }
    var body := req.value.body;
    if ByteLen(body) > MaxChirpLength {
      return ErrorJson(StatusBadRequest, "Chirp is too long");
    }
    var cleaned := CleanProfanity(body);
    var createdAt := now;
    var updatedAt := createdAt;
    var params := Chirp(chirpID, createdAt, updatedAt, cleaned, ParseString(req.value.userID).value);
    var chirp := db.CreateChirp(params);
    reply := Json(StatusCreated, ToResponse(chirp));
  }

  /** A 140-byte body passes the length check; a 141-byte one does not. */
  lemma LengthBoundary(body: string)
    ensures ByteLen(body) == 140 ==> AcceptBody(body).Ok?
    ensures ByteLen(body) == 141 ==> AcceptBody(body).Err?
  {
  }

  // ------------------------------------------------------- getAllChirpsHandler

  /** A Go slice: `nil`, or a (possibly empty) sequence. `json.Marshal` writes
      `nil` as `null` and any other slice as an array. */
  datatype Slice<T> = NilSlice | Elems(items: seq<T>)

  function Items<T>(s: Slice<T>): seq<T> {
    if s.NilSlice? then [] else s.items
  }

  /** Go's `append` of one element; the result is never nil. */
  function Append<T>(s: Slice<T>, x: T): (r: Slice<T>)
    ensures r.Elems? && r.items == Items(s) + [x]
  {
    Elems(Items(s) + [x])
  }

  /** The loop of `getAllChirpsHandler` as written: `response` starts as a nil
      slice, so an empty store is answered with `null` rather than `[]`. */
  method GetAllChirpsAsWritten(db: ChirpTable) returns (reply: Reply<Slice<ChirpResponse>>)
    ensures reply.Json? && reply.status == StatusOK
    ensures reply.body.NilSlice? <==> db.rows == []
    ensures |Items(reply.body)| == |db.rows|
    ensures forall i :: 0 <= i < |db.rows| ==> Items(reply.body)[i] == ToResponse(db.rows[i])
  {
    var chirps := db.GetAllChirps();
    var response: Slice<ChirpResponse> := NilSlice;
    for i := 0 to |chirps|
      invariant response.NilSlice? <==> i == 0
      invariant |Items(response)| == i
      invariant forall k :: 0 <= k < i ==> Items(response)[k] == ToResponse(chirps[k])
    {
      response := Append(response, ToResponse(chirps[i]));
    }
    reply := Json(StatusOK, response);
  }

  /** `getAllChirpsHandler` with `response` started as an empty, non-nil
      slice: one entry per stored chirp, in store order, every field copied,
      and always answered as a JSON array. */
  method GetAllChirpsHandler(db: ChirpTable) returns (reply: Reply<Slice<ChirpResponse>>)
    ensures reply.Json? && reply.status == StatusOK && reply.body.Elems?
    ensures |reply.body.items| == |db.rows|
    ensures forall i :: 0 <= i < |db.rows| ==>
      var r, c := reply.body.items[i], db.rows[i];
      r.id == c.id && r.createdAt == c.createdAt && r.updatedAt == c.updatedAt
      && r.body == c.body && r.userID == c.userID
  {
    var chirps := db.GetAllChirps();
    var response: Slice<ChirpResponse> := Elems([]);
    for i := 0 to |chirps|
      invariant response.Elems?
      invariant |response.items| == i
      invariant forall k :: 0 <= k < i ==> response.items[k] == ToResponse(chirps[k])
    {
      response := Append(response, ToResponse(chirps[i]));
    }
    reply := Json(StatusOK, response);
  }
}

=== FILE: database.dfy ===
/** internal/database (refresh tokens): the `refresh_tokens` table, keyed by
    its `token` column, with the three queries the core runs against it. */
module Database {
  import opened Wrappers
  import opened GoTime
  import opened Uuid

  /** `sql.NullTime`: a time that may be NULL (`valid == false`). */
  datatype NullTime = NullTime(time: Time, valid: bool)

  /** What a `timestamp` column keeps of a NullTime: a NULL keeps no time and
      reads back as the zero time. */
  function Stored(n: NullTime): (r: NullTime)
    ensures r.valid == n.valid
    ensures n.valid ==> r == n
    ensures !n.valid ==> r.time == ZeroTime
  {
    if n.valid then n else NullTime(ZeroTime, false)
  }

  /** A row of `refresh_tokens`. */
  datatype RefreshToken = RefreshToken(
    token: string,
    createdAt: Time,
    updatedAt: Time,
    userID: UUID,
    expiresAt: Time,
    revokedAt: NullTime)

  datatype CreateRefreshTokenParams = CreateRefreshTokenParams(
    token: string,
    createdAt: Time,
    updatedAt: Time,
    userID: UUID,
    expiresAt: Time,
    revokedAt: NullTime)

  datatype RevokeRefreshTokenParams = RevokeRefreshTokenParams(
    token: string,
    revokedAt: NullTime,
    updatedAt: Time)

  datatype DbError =
    | NoRows            // `sql.ErrNoRows` from a point lookup
    | UniqueViolation   // INSERT of a token that is already a key

  /** The table's contents, by primary key. */
  type Table = map<string, RefreshToken>

  /** Every row sits under its own token. */
  predicate KeyedByToken(t: Table) {
    forall k :: k in t ==> t[k].token == k
  }

  /** Every NULL `revoked_at` holds the zero time, as a scan returns it. */
  predicate NullsAreZero(t: Table) {
    forall k :: k in t && !t[k].revokedAt.valid ==> t[k].revokedAt.time == ZeroTime
  }

  /** The INSERT of `createRefreshToken`. */
  function Insert(t: Table, arg: CreateRefreshTokenParams): (r: Result<Table, DbError>)
    ensures r.Err? <==> arg.token in t
    ensures r.Err? ==> r.error == UniqueViolation
    ensures r.Ok? ==> r.value.Keys == t.Keys + {arg.token}
    ensures r.Ok? ==> forall k :: k in t ==> r.value[k] == t[k]
    ensures r.Ok? ==>
      var row := r.value[arg.token];
      && row.token == arg.token && row.createdAt == arg.createdAt
      && row.updatedAt == arg.updatedAt && row.userID == arg.userID
      && row.expiresAt == arg.expiresAt && row.revokedAt == Stored(arg.revokedAt)
    ensures r.Ok? && KeyedByToken(t) ==> KeyedByToken(r.value)
    ensures r.Ok? && NullsAreZero(t) ==> NullsAreZero(r.value)
  {
    if arg.token in t then Err(UniqueViolation)
    else
      Ok(t[arg.token := RefreshToken(arg.token, arg.createdAt, arg.updatedAt,
                                      arg.userID, arg.expiresAt, Stored(arg.revokedAt))])
  }

  /** The SELECT of `getRefreshToken`. */
  function Lookup(t: Table, token: string): (r: Result<RefreshToken, DbError>)
    ensures r.Ok? <==> token in t
    ensures r.Ok? ==> r.value == t[token]
    ensures r.Err? ==> r.error == NoRows
  {
    if token in t then Ok(t[token]) else Err(NoRows)
  }

  /** The UPDATE of `revokeRefreshToken`: sets `revoked_at` and `updated_at`
      of the row whose key is the token, and of no other row. */
  function Revoke(t: Table, arg: RevokeRefreshTokenParams): (r: Table)
    ensures r.Keys == t.Keys
    ensures forall k :: k in t && k != arg.token ==> r[k] == t[k]
    ensures arg.token in t ==>
      var before, after := t[arg.token], r[arg.token];
      && after.revokedAt == Stored(arg.revokedAt) && after.updatedAt == arg.updatedAt
      && after.token == before.token && after.createdAt == before.createdAt
      && after.userID == before.userID && after.expiresAt == before.expiresAt
    ensures KeyedByToken(t) ==> KeyedByToken(r)
    ensures NullsAreZero(t) ==> NullsAreZero(r)
  {
    if arg.token in t then
      t[arg.token := t[arg.token].(revokedAt := Stored(arg.revokedAt), updatedAt := arg.updatedAt)]
    else t
  }

  /** Revoking a token that has no row changes nothing. */
  lemma RevokeMissingIsNoOp(t: Table, arg: RevokeRefreshTokenParams)
    requires arg.token !in t
    ensures Revoke(t, arg) == t
  {
  }

  /** A second revoke of the same token re-stamps it: only the last one shows. */
  lemma RevokeTwice(t: Table, first: RevokeRefreshTokenParams, second: RevokeRefreshTokenParams)
    requires first.token == second.token
    ensures Revoke(Revoke(t, first), second) == Revoke(t, second)
  {
    var k := first.token;
    if k in t {
      var stamp := Stored(second.revokedAt);
      assert Revoke(t, first)[k].(revokedAt := stamp, updatedAt := second.updatedAt)
          == t[k].(revokedAt := stamp, updatedAt := second.updatedAt);
    }
  }

  /** Once `revoked_at` holds a time it keeps one under every insert and every
      revoke that passes a time, which is all the core's revoke ever passes. */
  lemma RevokedStaysRevoked(t: Table, token: string, c: CreateRefreshTokenParams, v: RevokeRefreshTokenParams)
    requires token in t && t[token].revokedAt.valid
    requires v.revokedAt.valid
    ensures Insert(t, c).Ok? ==> Insert(t, c).value[token].revokedAt.valid
    ensures Revoke(t, v)[token].revokedAt.valid
  {
  }

  /** The generated `Queries` object, over the one table it touches here. */
  class Queries {
    var refreshTokens: Table

    ghost predicate Valid()
      reads this
    {
      KeyedByToken(refreshTokens) && NullsAreZero(refreshTokens)
    }

    constructor ()
      ensures Valid() && refreshTokens == map[]
    {
      refreshTokens := map[];
    }

    /** `CreateRefreshToken`: adds a row holding exactly the six given fields;
        a token that is already a key is refused and nothing changes. */
    method CreateRefreshToken(arg: CreateRefreshTokenParams) returns (err: Option<DbError>)
      requires Valid()
      modifies this
      ensures Valid()
      ensures match Insert(old(refreshTokens), arg)
              case Ok(t) => err == None && refreshTokens == t
              case Err(e) => err == Some(e) && refreshTokens == old(refreshTokens)
    {
      match Insert(refreshTokens, arg)
      case Ok(t) =>
        refreshTokens := t;
        err := None;
      case Err(e) =>
        err := Some(e);
    }

    /** `GetRefreshToken`: the row whose token is `token`, all six fields, or
        `NoRows`. */
    method GetRefreshToken(token: string) returns (r: Result<RefreshToken, DbError>)
      requires Valid()
      ensures r.Ok? <==> token in refreshTokens
      ensures r.Ok? ==> r.value == refreshTokens[token] && r.value.token == token
      ensures r.Err? ==> r.error == NoRows
    {
      r := Lookup(refreshTokens, token);
    }

    /** `RevokeRefreshToken`: stamps the matching row; no row, no change, and
        never an error. */
    method RevokeRefreshToken(arg: RevokeRefreshTokenParams) returns (err: Option<DbError>)
      requires Valid()
      modifies this
      ensures Valid()
      ensures err == None
      ensures refreshTokens == Revoke(old(refreshTokens), arg)
    {
      refreshTokens := Revoke(refreshTokens, arg);
      err := None;
    }
  }
}

=== FILE: gostrings.dfy ===
/** The parts of Go's `strings`, `unicode` and `unicode/utf8` packages that the
    Chirpy core relies on. A Go string is modelled as the sequence of its runes
    (Unicode scalar values); its length in bytes is the length of its UTF-8 form. */
module GoStrings {

  newtype byte = b: int | 0 <= b < 256

  /** Go's `unicode.IsSpace`: the runes of the Unicode White_Space property. */
  predicate IsSpace(c: char) {
    || ('\t' <= c <= '\r')                 // \t \n \v \f \r
    || c == ' '
    || c == '\U{0085}' || c == '\U{00A0}' || c == '\U{1680}'
    || ('\U{2000}' <= c <= '\U{200A}')
    || c == '\U{2028}' || c == '\U{2029}' || c == '\U{202F}'
    || c == '\U{205F}' || c == '\U{3000}'
  }

  /** The ASCII white space is exactly space, tab, newline, vertical tab,
      form feed and carriage return; no rune above U+3000 is white space. */
  lemma IsSpaceRunes(c: char)
    ensures c as int < 128 ==> (IsSpace(c) <==> c in [' ', '\t', '\n', '\U{000B}', '\U{000C}', '\r'])
    ensures IsSpace(c) ==> c as int <= 0x3000
  {
  }

  predicate AllSpace(s: string) {
    forall i :: 0 <= i < |s| ==> IsSpace(s[i])
  }

  predicate NoSpace(s: string) {
    forall i :: 0 <= i < |s| ==> !IsSpace(s[i])
  }

  /** Neither starts nor ends with white space. */
  predicate Trimmed(s: string) {
    s == [] || (!IsSpace(s[0]) && !IsSpace(s[|s| - 1]))
  }

  // ---------------------------------------------------------------- TrimSpace

  /** The number of white-space runes that `s` starts with. */
  function LeadingSpaces(s: string): (n: nat)
    ensures n <= |s|
    ensures forall k :: 0 <= k < n ==> IsSpace(s[k])
    ensures n < |s| ==> !IsSpace(s[n])
  {
    if s != [] && IsSpace(s[0]) then 1 + LeadingSpaces(s[1..]) else 0
  }

  /** The number of white-space runes that `s` ends with. */
  function TrailingSpaces(s: string): (n: nat)
    ensures n <= |s|
    ensures forall k :: |s| - n <= k < |s| ==> IsSpace(s[k])
    ensures n < |s| ==> !IsSpace(s[|s| - 1 - n])
  {
    if s != [] && IsSpace(s[|s| - 1]) then 1 + TrailingSpaces(s[..|s| - 1]) else 0
  }

  /** Go's `strings.TrimSpace`: the infix of `s` left after removing all leading
      and trailing white space. */
  function TrimSpace(s: string): (r: string)
    ensures Trimmed(r)
    ensures r == [] <==> AllSpace(s)
    ensures |r| <= |s|
  {
    var a := LeadingSpaces(s);
    if a == |s| then
      assert s[..a] == s;
      []
    else
      var b := TrailingSpaces(s);
      assert a < |s| - b;
      s[a..|s| - b]
  }

  /** What TrimSpace removed: white space before and after the result. */
  lemma TrimSpaceParts(s: string) returns (before: string, after: string)
    ensures AllSpace(before) && AllSpace(after)
    ensures s == before + TrimSpace(s) + after
  {
    var a := LeadingSpaces(s);
    if a == |s| {
      before, after := s, [];
      assert s + [] + [] == s;
    } else {
      var e := |s| - TrailingSpaces(s);
      assert TrimSpace(s) == s[a..e];
      before, after := SpaceAround(s, a, e);
    }
  }

  /** Cutting white space off both ends of `s` around `s[a..e]`. */
  lemma SpaceAround(s: string, a: nat, e: nat) returns (before: string, after: string)
    requires a <= e <= |s|
    requires forall k :: 0 <= k < a ==> IsSpace(s[k])
    requires forall k :: e <= k < |s| ==> IsSpace(s[k])
    ensures AllSpace(before) && AllSpace(after)
    ensures s == before + s[a..e] + after
  {
    before, after := s[..a], s[e..];
    assert forall k :: 0 <= k < |after| ==> after[k] == s[e + k];
    assert s == before + s[a..e] + after;
  }

  /** TrimSpace leaves a string without surrounding white space unchanged. */
  lemma {:induction false} TrimSpaceOfTrimmed(s: string)
    requires Trimmed(s)
    ensures TrimSpace(s) == s
  {
    if s != [] {
      assert LeadingSpaces(s) == 0;
      assert TrailingSpaces(s) == 0;
      assert s[0..|s|] == s;
    }
  }

  // ------------------------------------------------------------ Fields / Join

  /** The longest prefix of `s` that holds no white space. */
  function LeadingWord(s: string): (w: string)
    ensures |w| <= |s| && w == s[..|w|]
    ensures NoSpace(w)
    ensures |w| < |s| ==> IsSpace(s[|w|])
  {
    if s == [] || IsSpace(s[0]) then [] else [s[0]] + LeadingWord(s[1..])
  }

  /** Go's `strings.Fields`: the maximal runs of non-white-space runes, in order. */
  function Fields(s: string): (ws: seq<string>)
    ensures forall i :: 0 <= i < |ws| ==> ws[i] != [] && NoSpace(ws[i])
    decreases |s|
  {
    if s == [] then []
    else if IsSpace(s[0]) then Fields(s[1..])
    else
      var w := LeadingWord(s);
      [w] + Fields(s[|w|..])
  }

  /** Fields finds no field exactly when the string is all white space. */
  lemma {:induction false} FieldsEmpty(s: string)
    ensures Fields(s) == [] <==> AllSpace(s)
    decreases |s|
  {
    if s != [] && IsSpace(s[0]) {
      FieldsEmpty(s[1..]);
      assert AllSpace(s) <==> AllSpace(s[1..]);
    }
  }

  /** The summed lengths of some strings. */
  function TotalLength(ws: seq<string>): nat {
    if ws == [] then 0 else |ws[0]| + TotalLength(ws[1..])
  }

  /** Go's `strings.Join`: the strings in order, with `sep` between
      neighbours and nowhere else. */
  function Join(ws: seq<string>, sep: string): (r: string)
    ensures ws == [] ==> r == []
    ensures ws != [] ==> ws[0] <= r
  {
    if ws == [] then []
    else if |ws| == 1 then ws[0]
    else ws[0] + sep + Join(ws[1..], sep)
  }

  /** Words suitable for Fields: non-empty and free of white space. */
  predicate AreWords(ws: seq<string>) {
    forall i :: 0 <= i < |ws| ==> ws[i] != [] && NoSpace(ws[i])
  }

  lemma {:induction false} LeadingWordOfWord(w: string, t: string)
    requires NoSpace(w)
    requires t == [] || IsSpace(t[0])
    ensures LeadingWord(w + t) == w
  {
    if w != [] {
      assert (w + t)[1..] == w[1..] + t;
      LeadingWordOfWord(w[1..], t);
    } else {
      assert w + t == t;
    }
  }

  /** Splitting words joined by single spaces gives the words back. */
  lemma {:induction false} FieldsOfJoin(ws: seq<string>)
    requires AreWords(ws)
    ensures Fields(Join(ws, " ")) == ws
  {
    if ws == [] {
    } else if |ws| == 1 {
      var w := ws[0];
      LeadingWordOfWord(w, []);
      assert w + [] == w;
      assert w[|w|..] == [];
    } else {
      var w, rest := ws[0], Join(ws[1..], " ");
      var s := w + " " + rest;
      assert s == w + (" " + rest);
      LeadingWordOfWord(w, " " + rest);
      assert s[0] == w[0];
      assert s[|w|..] == " " + rest;
      assert (" " + rest)[1..] == rest;
      FieldsOfJoin(ws[1..]);
      assert ws == [w] + ws[1..];
    }
  }

  /** Join adds one separator between each pair of neighbours and nothing
      else. */
  lemma {:induction false} JoinLength(ws: seq<string>, sep: string)
    requires ws != []
    ensures |Join(ws, sep)| + |sep| == TotalLength(ws) + |ws| * |sep|
  {
    if |ws| > 1 {
      JoinLength(ws[1..], sep);
    }
  }

  /** `seps[0] + ws[0] + seps[1] + ... + ws[n-1] + seps[n]`. */
  function Interleave(seps: seq<string>, ws: seq<string>): string
    requires |seps| == |ws| + 1
    decreases |ws|
  {
    if ws == [] then seps[0] else seps[0] + ws[0] + Interleave(seps[1..], ws[1..])
  }

  lemma {:induction false} InterleavePrepend(p: string, seps: seq<string>, ws: seq<string>)
    requires |seps| == |ws| + 1
    ensures Interleave([p + seps[0]] + seps[1..], ws) == p + Interleave(seps, ws)
  {
    var seps' := [p + seps[0]] + seps[1..];
    assert seps'[1..] == seps[1..];
    if ws != [] {
      assert Interleave(seps', ws) == p + seps[0] + ws[0] + Interleave(seps[1..], ws[1..]);
    }
  }

  /** What FieldsSeparators promises of `seps` for `s`. */
  predicate SeparatesFields(s: string, seps: seq<string>) {
    && |seps| == |Fields(s)| + 1
    && (forall i :: 0 <= i < |seps| ==> AllSpace(seps[i]))
    && (forall i :: 0 < i < |Fields(s)| ==> seps[i] != [])
    && (s != [] && IsSpace(s[0]) ==> seps[0] != [])
    && s == Interleave(seps, Fields(s))
  }

  /** Fields splits its input exactly: the input is its fields separated by
      runs of white space, non-empty between two fields and possibly empty at
      either end. */
  lemma {:induction false} FieldsSeparators(s: string) returns (seps: seq<string>)
    ensures |seps| == |Fields(s)| + 1
    ensures forall i :: 0 <= i < |seps| ==> AllSpace(seps[i])
    ensures forall i :: 0 < i < |Fields(s)| ==> seps[i] != []
    ensures s != [] && IsSpace(s[0]) ==> seps[0] != []
    ensures s == Interleave(seps, Fields(s))
    decreases |s|
  {
    if s == [] {
      seps := [[]];
    } else if IsSpace(s[0]) {
      var seps' := FieldsSeparators(s[1..]);
      seps := SeparatorsAfterSpace(s, seps');
    } else {
      var w := LeadingWord(s);
      var seps' := FieldsSeparators(s[|w|..]);
      seps := SeparatorsAfterWord(s, seps');
    }
    assert SeparatesFields(s, seps);
  }

  lemma SeparatorsAfterSpace(s: string, seps': seq<string>) returns (seps: seq<string>)
    requires s != [] && IsSpace(s[0]) && SeparatesFields(s[1..], seps')
    ensures SeparatesFields(s, seps)
  {
    var ws := Fields(s);
    assert ws == Fields(s[1..]);
    seps := [[s[0]] + seps'[0]] + seps'[1..];
    InterleavePrepend([s[0]], seps', ws);
    assert s == [s[0]] + s[1..];
    assert forall i :: 0 < i < |seps| ==> seps[i] == seps'[i];
  }

  lemma SeparatorsAfterWord(s: string, seps': seq<string>) returns (seps: seq<string>)
    requires s != [] && !IsSpace(s[0]) && SeparatesFields(s[|LeadingWord(s)|..], seps')
    ensures SeparatesFields(s, seps)
  {
    var w := LeadingWord(s);
    var rest := s[|w|..];
    var fr := Fields(rest);
    var ws := Fields(s);
    assert ws == [w] + fr;
    seps := [[]] + seps';
    InterleaveWord(w, seps', fr);
    assert s == w + rest;
    forall i | 0 < i < |ws| ensures seps[i] != [] {
      if i == 1 {
        assert rest != [];
        assert IsSpace(rest[0]);
      } else {
        assert seps[i] == seps'[i - 1];
      }
    }
    forall i | 0 <= i < |seps| ensures AllSpace(seps[i]) {
      if i > 0 { assert seps[i] == seps'[i - 1]; }
    }
  }

  lemma InterleaveWord(w: string, seps: seq<string>, ws: seq<string>)
    requires |seps| == |ws| + 1
    ensures Interleave([[]] + seps, [w] + ws) == w + Interleave(seps, ws)
  {
    var seps', ws' := [[]] + seps, [w] + ws;
    assert seps'[0] == [] && ws'[0] == w;
    assert seps'[1..] == seps && ws'[1..] == ws;
    assert [] + w == w;
  }

  /** Words joined by single spaces neither start nor end with white space. */
  lemma {:induction false} JoinIsTrimmed(ws: seq<string>)
    requires AreWords(ws)
    ensures Trimmed(Join(ws, " "))
    ensures ws != [] ==> Join(ws, " ") != []
  {
    if |ws| > 1 {
      JoinIsTrimmed(ws[1..]);
      var j := Join(ws, " ");
      assert j == ws[0] + " " + Join(ws[1..], " ");
      assert j[0] == ws[0][0];
      assert j[|j| - 1] == Join(ws[1..], " ")[|Join(ws[1..], " ")| - 1];
    }
  }

  /** Joining, by single spaces, words no longer in bytes than the fields of
      `s` gives a string no longer in bytes than `s`. */
  lemma {:induction false} JoinOfFieldsNoLonger(s: string, vs: seq<string>)
    requires |vs| == |Fields(s)|
    requires forall i :: 0 <= i < |vs| ==> ByteLen(vs[i]) <= ByteLen(Fields(s)[i])
    ensures ByteLen(Join(vs, " ")) <= ByteLen(s)
    decreases |s|
  {
    if s == [] {
    } else if IsSpace(s[0]) {
      assert Fields(s) == Fields(s[1..]);
      JoinOfFieldsNoLonger(s[1..], vs);
      assert s == [s[0]] + s[1..];
      Utf8Concat([s[0]], s[1..]);
    } else {
      var w := LeadingWord(s);
      var rest := s[|w|..];
      assert s == w + rest;
      Utf8Concat(w, rest);
      assert Fields(s) == [w] + Fields(rest);
      if |vs| > 1 {
        var tail := rest[1..];
        assert rest == [rest[0]] + tail;
        assert Fields(s)[1..] == Fields(tail);
        JoinOfFieldsNoLonger(tail, vs[1..]);
        JoinStepNoLonger(w, [rest[0]], tail, vs[0], Join(vs[1..], " "));
      }
    }
  }

  /** One step of the bound: a word, a separator of at least one byte, and
      the rest, against a shorter word, a space and a shorter rest. */
  lemma JoinStepNoLonger(w: string, sp: string, tail: string, v: string, joined: string)
    requires |sp| == 1 && ByteLen(v) <= ByteLen(w) && ByteLen(joined) <= ByteLen(tail)
    ensures ByteLen(v + " " + joined) <= ByteLen(w + (sp + tail))
  {
    Utf8Concat(v + " ", joined);
    Utf8Concat(v, " ");
    Utf8Concat(w, sp + tail);
    Utf8Concat(sp, tail);
  }

  // ------------------------------------------------------------------ ToLower

  /** The lower-case form of a rune, exact wherever Go's `unicode.ToLower`
      yields an ASCII rune (A-Z, U+0130 and the Kelvin sign U+212A); every
      other rune is returned unchanged. Compared against ASCII text, this
      decides equality exactly as Go's `strings.ToLower` would. */
  function LowerRune(c: char): (r: char)
    ensures 'A' <= c <= 'Z' ==> r as int == c as int + 32
    ensures (r as int < 128) ==> (c as int < 128 || c == '\U{0130}' || c == '\U{212A}')
    ensures 'a' <= r <= 'z' || r == c
  {
    if 'A' <= c <= 'Z' then (c as int + 32) as char
    else if c == '\U{212A}' then 'k'
    else if c == '\U{0130}' then 'i'
    else c
  }

  /** Go's `strings.ToLower`, rune by rune (see LowerRune). */
  function Lower(s: string): (r: string)
    ensures |r| == |s|
    ensures forall i :: 0 <= i < |s| ==> r[i] == LowerRune(s[i])
  {
    seq(|s|, i requires 0 <= i < |s| => LowerRune(s[i]))
  }

  /** `c` lowers to the ASCII lower-case letter `a`: it is `a`, its upper
      case, or one of the two non-ASCII runes that Go lowers to an ASCII
      letter (U+212A to 'k', U+0130 to 'i'). */
  predicate FoldsTo(c: char, a: char) {
    || c == a
    || c as int == a as int - 32
    || (a == 'k' && c == '\U{212A}')
    || (a == 'i' && c == '\U{0130}')
  }

  /** `w` matches the lower-case ASCII word `p` rune by rune, up to case. */
  predicate EqualFoldTo(w: string, p: string) {
    |w| == |p| && forall i :: 0 <= i < |w| ==> FoldsTo(w[i], p[i])
  }

  predicate IsLowerAsciiWord(p: string) {
    forall i :: 0 <= i < |p| ==> 'a' <= p[i] <= 'z'
  }

  /** Lowering a word gives a lower-case ASCII word exactly when the word
      matches it up to case. */
  lemma LowerIsWord(w: string, p: string)
    requires IsLowerAsciiWord(p)
    ensures Lower(w) == p <==> EqualFoldTo(w, p)
  {
    if |w| == |p| {
      forall i | 0 <= i < |w| ensures LowerRune(w[i]) == p[i] <==> FoldsTo(w[i], p[i]) {
        assert 'a' <= p[i] <= 'z';
      }
      if EqualFoldTo(w, p) {
        assert Lower(w) == p;
      }
    }
  }

  // -------------------------------------------------------------------- UTF-8

  /** The UTF-8 encoding of one rune (section 3 of RFC 3629). */
  function RuneBytes(c: char): (bs: seq<byte>)
    ensures |bs| == if c as int < 0x80 then 1 else if c as int < 0x800 then 2
                    else if c as int < 0x1_0000 then 3 else 4
    ensures c as int < 128 ==> bs == [c as int as byte]
  {
    var v := c as int;
    if v < 0x80 then [v as byte]
    else if v < 0x800 then [(0xC0 + v / 64) as byte, (0x80 + v % 64) as byte]
    else if v < 0x1_0000 then
      [(0xE0 + v / 4096) as byte, (0x80 + (v / 64) % 64) as byte, (0x80 + v % 64) as byte]
    else
      [(0xF0 + v / 262144) as byte, (0x80 + (v / 4096) % 64) as byte,
       (0x80 + (v / 64) % 64) as byte, (0x80 + v % 64) as byte]
  }

  /** The bytes of a Go string: every rune takes at least one byte. */
  function Utf8(s: string): (bs: seq<byte>)
    ensures |bs| >= |s|
  {
    if s == [] then [] else RuneBytes(s[0]) + Utf8(s[1..])
  }

  /** A one-rune string is that rune's encoding. */
  lemma Utf8OfRune(c: char)
    ensures Utf8([c]) == RuneBytes(c)
  {
    assert [c][1..] == [];
  }

  /** Go's `len(s)`: the number of bytes of the string. */
  function ByteLen(s: string): (n: nat)
    ensures n >= |s|
  {
    |Utf8(s)|
  }

  predicate IsAscii(s: string) {
    forall i :: 0 <= i < |s| ==> s[i] as int < 128
  }

  lemma {:induction false} Utf8Concat(a: string, b: string)
    ensures Utf8(a + b) == Utf8(a) + Utf8(b)
  {
    if a != [] {
      assert (a + b)[1..] == a[1..] + b;
      Utf8Concat(a[1..], b);
    } else {
      assert a + b == b;
    }
  }

  /** An ASCII string has one byte per rune, equal to the rune's code. */
  lemma {:induction false} Utf8OfAscii(s: string)
    requires IsAscii(s)
    ensures |Utf8(s)| == |s|
    ensures forall i :: 0 <= i < |s| ==> Utf8(s)[i] == s[i] as int as byte
  {
    if s != [] {
      Utf8OfAscii(s[1..]);
    }
  }
}

=== FILE: gotime.dfy ===
/** Go's `time` values as the core uses them: wall-clock instants and
    durations, both in nanoseconds. */
module GoTime {

  /** An instant: nanoseconds since the Unix epoch. */
  type Time = int

  /** A `time.Duration`: a signed number of nanoseconds. */
  type Duration = int

  const Millisecond: Duration := 1_000_000
  const Second: Duration := 1_000_000_000
  const Hour: Duration := 3600 * Second

  /** The zero `time.Time`, January 1 of year 1 UTC. */
  const ZeroTime: Time := -62_135_596_800 * Second

  /** `t.Truncate(time.Second)`: the whole second at or before `t`. This is
      what `jwt.NewNumericDate` keeps of an instant. */
  function TruncateToSecond(t: Time): (r: Time)
    ensures r <= t < r + Second
    ensures r % Second == 0
  {
    (t / Second) * Second
  }

  /** `t.After(u)`: strictly later, so no instant is after itself and of two
      distinct instants exactly one is after the other. */
  predicate After(t: Time, u: Time) {
    t > u
  }

  lemma AfterIsStrict(t: Time, u: Time)
    ensures !After(t, t)
    ensures t != u ==> (After(t, u) <==> !After(u, t))
  {
  }
}

=== FILE: hex.dfy ===
/** Go's `encoding/hex`: Base16 with lower-case digits when encoding, either
    case accepted when decoding (section 8 of RFC 4648). */
module Hex {
  import opened Wrappers
  import opened GoStrings

  predicate IsLowerHexDigit(c: char) {
    '0' <= c <= '9' || 'a' <= c <= 'f'
  }

  /** The digit `encoding/hex` writes for a nibble. */
  function HexDigit(d: int): (c: char)
    requires 0 <= d < 16
    ensures IsLowerHexDigit(c)
    ensures c == "0123456789abcdef"[d]
  {
    if d < 10 then ('0' as int + d) as char else ('a' as int + d - 10) as char
  }

  /** The value of a hexadecimal digit of either case; None for any other rune. */
  function HexValue(c: char): (v: Option<int>)
    ensures v.Some? ==> 0 <= v.value < 16
    ensures v.Some? <==> (IsLowerHexDigit(c) || 'A' <= c <= 'F')
  {
    if '0' <= c <= '9' then Some(c as int - '0' as int)
    else if 'a' <= c <= 'f' then Some(c as int - 'a' as int + 10)
    else if 'A' <= c <= 'F' then Some(c as int - 'A' as int + 10)
    else None
  }

  /** Reading a digit back gives the nibble it was written for. */
  lemma HexValueOfDigit(d: int)
    requires 0 <= d < 16
    ensures HexValue(HexDigit(d)) == Some(d)
  {
  }

  /** An upper-case digit is worth what its lower-case form is worth. */
  lemma HexValueOfUpper(c: char)
    requires 'A' <= c <= 'F'
    ensures HexValue(c) == HexValue((c as int + 32) as char)
    ensures HexValue(c) == Some(c as int - 'A' as int + 10)
  {
  }

  /** `hex.EncodeToString`: two lower-case digits per byte, high nibble first. */
  function Encode(bs: seq<byte>): (s: string)
    ensures |s| == 2 * |bs|
    ensures forall i :: 0 <= i < |s| ==> IsLowerHexDigit(s[i])
  {
    if bs == [] then []
    else [HexDigit(bs[0] as int / 16), HexDigit(bs[0] as int % 16)] + Encode(bs[1..])
  }

  /** The inverse of Encode (`hex.DecodeString`): None on odd length or on a
      rune that is not a hexadecimal digit. */
  function Decode(s: string): (r: Option<seq<byte>>)
    ensures r.Some? ==> 2 * |r.value| == |s|
  {
    if s == [] then Some([])
    else if |s| == 1 then None
    else
      match (HexValue(s[0]), HexValue(s[1]), Decode(s[2..]))
      case (Some(hi), Some(lo), Some(rest)) => Some([(hi * 16 + lo) as byte] + rest)
      case _ => None
  }

  /** The two digits at positions 2k and 2k+1 encode byte k. */
  lemma {:induction false} EncodeAt(bs: seq<byte>, k: nat)
    requires k < |bs|
    ensures Encode(bs)[2 * k] == HexDigit(bs[k] as int / 16)
    ensures Encode(bs)[2 * k + 1] == HexDigit(bs[k] as int % 16)
  {
    if k > 0 {
      EncodeAt(bs[1..], k - 1);
    }
  }

  /** Decoding an encoding gives the bytes back. */
  lemma {:induction false} DecodeEncode(bs: seq<byte>)
    ensures Decode(Encode(bs)) == Some(bs)
  {
    if bs != [] {
      var b := bs[0] as int;
      var s := Encode(bs);
      HexValueOfDigit(b / 16);
      HexValueOfDigit(b % 16);
      assert s[2..] == Encode(bs[1..]);
      DecodeEncode(bs[1..]);
      assert bs == [bs[0]] + bs[1..];
    }
  }

  /** Encode is injective: distinct byte strings have distinct encodings. */
  lemma EncodeInjective(a: seq<byte>, b: seq<byte>)
    requires Encode(a) == Encode(b)
    ensures a == b
  {
    DecodeEncode(a);
    DecodeEncode(b);
  }
}

=== FILE: misc.dfy ===
/** misc.go: the profanity filter and the refresh / revoke session handlers. */
module Misc {
  import opened Wrappers
  import opened GoStrings
  import opened GoTime
  import opened Uuid
  import opened Auth
  import opened Database

  // ------------------------------------------------------------------ replies

  /** What a handler writes: a JSON body with a status, an error envelope
      (`respondWithError`), or a bare 204. */
  datatype Reply<T> = Json(status: int, body: T) | ErrorJson(status: int, message: string) | NoContent

  const StatusOK := 200
  const StatusCreated := 201
  const StatusBadRequest := 400
  const StatusUnauthorized := 401
  const StatusInternalServerError := 500

  // ------------------------------------------------------------ cleanProfanity

  const ProfaneWords: seq<string> := ["kerfuffle", "sharbert", "fornax"]

  const Mask: string := "****"

  /** A word whose lower-case form is one of the profane words. */
  predicate IsProfane(word: string) {
    Lower(word) in ProfaneWords
  }

  /** What the filter makes of one word. */
  function Censor(word: string): (r: string)
    ensures !IsProfane(r)
    ensures IsProfane(word) ==> r == Mask
    ensures !IsProfane(word) ==> r == word
  {
    if IsProfane(word) then
      MaskIsClean();
      Mask
    else word
  }

  function Censored(words: seq<string>): (r: seq<string>)
    ensures |r| == |words|
  {
    seq(|words|, i requires 0 <= i < |words| => Censor(words[i]))
  }

  /** The filter's result: the white-space separated words of `content`, each
      censored, joined by single spaces. */
  function CleanText(content: string): string {
    Join(Censored(Fields(content)), " ")
  }

  /** `cleanProfanity`: splits into fields, overwrites each profane field in
      place with "****", and joins with single spaces. */
  method CleanProfanity(content: string) returns (cleaned: string)
    ensures cleaned == CleanText(content)
  {
    var fields := Fields(content);
    var words := new string[|fields|](i requires 0 <= i < |fields| => fields[i]);
    for i := 0 to words.Length
      invariant forall k :: 0 <= k < i ==> words[k] == Censor(fields[k])
      invariant forall k :: i <= k < words.Length ==> words[k] == fields[k]
    {
      var word := words[i];
      var lowered := Lower(word);
      ghost var before := words[..];
      for j := 0 to |ProfaneWords|
        invariant words[..] == before
        invariant forall p :: 0 <= p < j ==> lowered != ProfaneWords[p]
      {
        if lowered == ProfaneWords[j] {
          words[i] := Mask;
          break;
        }
      }
      CensorByScan(word, words[i]);
    }
    assert words[..] == Censored(fields);
    cleaned := Join(words[..], " ");
  }

  /** The inner loop's outcome is Censor: the word was masked on a match, or
      kept after no listed word matched. */
  lemma CensorByScan(word: string, result: string)
    requires result == Mask || (result == word && forall p :: 0 <= p < |ProfaneWords| ==> Lower(word) != ProfaneWords[p])
    requires result == Mask ==> IsProfane(word) || word == Mask
    ensures result == Censor(word)
  {
  }

  lemma CensorKeepsWords(words: seq<string>)
    requires AreWords(words)
    ensures AreWords(Censored(words))
  {
  }

  /** The filter works word by word: the words of its output are those of its
      input, in the same number and order, each profane one replaced by
      "****" and every other one kept as it is. */
  lemma {:induction false} CleanTextWords(content: string)
    ensures Fields(CleanText(content)) == Censored(Fields(content))
    ensures |Fields(CleanText(content))| == |Fields(content)|
    ensures forall i :: 0 <= i < |Fields(content)| ==>
      Fields(CleanText(content))[i] == (if IsProfane(Fields(content)[i]) then Mask else Fields(content)[i])
  {
    CensorKeepsWords(Fields(content));
    FieldsOfJoin(Censored(Fields(content)));
  }

  /** The output has no leading or trailing white space. */
  lemma CleanTextTrimmed(content: string)
    ensures Trimmed(CleanText(content))
  {
    CensorKeepsWords(Fields(content));
    JoinIsTrimmed(Censored(Fields(content)));
  }

  lemma MaskIsClean()
    ensures !IsProfane(Mask)
  {
    assert |Lower(Mask)| == 4;
  }

  /** Matching is Go's `strings.ToLower(word) == profane`: a word is profane
      exactly when it spells one of the listed words rune by rune up to
      case, where the Kelvin sign counts as 'k' and U+0130 as 'i'. */
  lemma ProfaneMatch(word: string)
    ensures IsProfane(word) <==> exists p :: p in ProfaneWords && EqualFoldTo(word, p)
  {
    LowerIsWord(word, ProfaneWords[0]);
    LowerIsWord(word, ProfaneWords[1]);
    LowerIsWord(word, ProfaneWords[2]);
  }

  /** Filtering twice is filtering once. */
  lemma {:induction false} CleanTextIdempotent(content: string)
    ensures CleanText(CleanText(content)) == CleanText(content)
  {
    var ws := Fields(content);
    CleanTextWords(content);
    MaskIsClean();
    assert Censored(Censored(ws)) == Censored(ws);
  }

  /** A single word is masked exactly when its lower-case form is profane;
      matching is on the whole word, so punctuation defeats it. */
  lemma {:induction false} CleanSingleWord(word: string)
    requires word != [] && NoSpace(word)
    ensures CleanText(word) == (if IsProfane(word) then Mask else word)
  {
    FieldsOfJoin([word]);
    assert Censored([word]) == [Censor(word)];
  }

  /** A profane word has the rune count of the listed word it matches. */
  lemma ProfaneLength(word: string)
    requires IsProfane(word)
    ensures |word| in {6, 8, 9}
  {
    assert |Lower(word)| == |word|;
  }

  /** Masking never lengthens a word. */
  lemma CensorNoLonger(word: string)
    ensures ByteLen(Censor(word)) <= ByteLen(word)
  {
    if IsProfane(word) {
      ProfaneLength(word);
      Utf8OfAscii(Mask);
    }
  }

  /** The filter never lengthens its input, counted in bytes: runs of white
      space shrink to one space and "****" is shorter than every profane word. */
  lemma CleanTextNoLonger(content: string)
    ensures ByteLen(CleanText(content)) <= ByteLen(content)
  {
    var ws := Fields(content);
    forall i | 0 <= i < |ws| ensures ByteLen(Censored(ws)[i]) <= ByteLen(ws[i]) {
      CensorNoLonger(ws[i]);
    }
    JoinOfFieldsNoLonger(content, Censored(ws));
  }

  /** Punctuation attached to a profane word keeps it from matching. */
  lemma PunctuatedWordKept()
    ensures CleanText("kerfuffle!") == "kerfuffle!"
  {
    CleanSingleWord("kerfuffle!");
  }

  /** Matching ignores case. */
  lemma CapitalisedWordMasked()
    ensures CleanText("Kerfuffle") == Mask
  {
    LowerOfCapitalised();
    assert IsProfane("Kerfuffle");
    assert NoSpace("Kerfuffle") by {
      forall k | 0 <= k < 9 ensures !IsSpace("Kerfuffle"[k]) {
        assert 'A' <= "Kerfuffle"[k] <= 'z';
      }
    }
    CleanSingleWord("Kerfuffle");
  }

  lemma LowerOfCapitalised()
    ensures Lower("Kerfuffle") == "kerfuffle"
  {
    var w := "Kerfuffle";
    forall k | 0 <= k < |w| ensures Lower(w)[k] == "kerfuffle"[k] {
      if k == 0 { assert LowerRune('K') == 'k'; }
    }
  }

  // ------------------------------------------------------------ refreshHandler

  /** The guard chain of `refreshHandler` over the looked-up row: unknown,
      then expired, then revoked; otherwise the row's user. */
  function CheckRefreshToken(lookup: Result<RefreshToken, DbError>, now: Time): (r: Result<UUID, string>)
    ensures r.Ok? <==> lookup.Ok? && !After(now, lookup.value.expiresAt) && !lookup.value.revokedAt.valid
    ensures r.Ok? ==> r.value == lookup.value.userID
    ensures lookup.Err? ==> r == Err("Invalid refresh token")
    ensures lookup.Ok? && After(now, lookup.value.expiresAt) ==> r == Err("Refresh token expired")
    ensures lookup.Ok? && !After(now, lookup.value.expiresAt) && lookup.value.revokedAt.valid
            ==> r == Err("Refresh token revoked")
  {
    match lookup
    case Err(_) => Err("Invalid refresh token")
    case Ok(row) =>
      if After(now, row.expiresAt) then Err("Refresh token expired")
      else if row.revokedAt.valid then Err("Refresh token revoked")
      else Ok(row.userID)
  }

  /** An unrevoked refresh token is still accepted at the very instant it
      expires, and refused from the next nanosecond on. */
  lemma RefreshAtExpiry(row: RefreshToken)
    requires !row.revokedAt.valid
    ensures CheckRefreshToken(Ok(row), row.expiresAt) == Ok(row.userID)
    ensures CheckRefreshToken(Ok(row), row.expiresAt + 1) == Err("Refresh token expired")
  {
  }

  /** `refreshHandler`: exchanges a stored, unexpired, unrevoked refresh token
      for a one-hour access token of the row's user. It only reads the store,
      so the refresh token is not rotated. */
  method RefreshHandler(db: Queries, headers: Header, jwtSecret: string, now: Time)
    returns (reply: Reply<TokenText>)
    requires db.Valid()
    ensures GetBearerToken(headers).Err? ==> reply == ErrorJson(StatusUnauthorized, "Refresh token required")
    ensures GetBearerToken(headers).Ok? ==>
      var token := GetBearerToken(headers).value;
      match CheckRefreshToken(Lookup(db.refreshTokens, token), now)
      case Err(message) => reply == ErrorJson(StatusUnauthorized, message)
      case Ok(userID) => reply == Json(StatusOK, MakeJWT(userID, jwtSecret, Hour, now))
  {
    var bearer := GetBearerToken(headers);
    if bearer.Err? {
      return ErrorJson(StatusUnauthorized, "Refresh token required");
    }
    var tokenData := db.GetRefreshToken(bearer.value);
    match CheckRefreshToken(tokenData, now)
    case Err(message) =>
      reply := ErrorJson(StatusUnauthorized, message);
    case Ok(userID) =>
      var newToken := MakeJWT(userID, jwtSecret, Hour, now);
      reply := Json(StatusOK, newToken);
  }

  /** A successful refresh issues a token that validates to the row's user
      for the next hour (to the whole second) under the same secret. */
  lemma {:induction false} RefreshIssuesTokenForUser(t: Table, token: string, secret: string, now: Time, later: Time)
    requires CheckRefreshToken(Lookup(t, token), now).Ok?
    requires later < TruncateToSecond(now + Hour)
    ensures token in t
    ensures ValidateJWT(MakeJWT(CheckRefreshToken(Lookup(t, token), now).value, secret, Hour, now), secret, later)
            == Ok(t[token].userID)
  {
    ValidateMakeJWT(t[token].userID, secret, Hour, now, later);
  }

  // ------------------------------------------------------------- revokeHandler

  /** What `revokeHandler` passes to the store: revoked and updated now. */
  function RevokeParams(token: string, now: Time): (r: RevokeRefreshTokenParams)
    ensures r.token == token && r.revokedAt.valid && r.revokedAt.time == r.updatedAt == now
  {
    RevokeRefreshTokenParams(token, NullTime(now, true), now)
  }

  /** `revokeHandler`: with a bearer token, stamps its row (if any) as revoked
      now and answers 204; without one, answers 401 and changes nothing. */
  method RevokeHandler(db: Queries, headers: Header, now: Time) returns (reply: Reply<()>)
    requires db.Valid()
    modifies db
    ensures db.Valid()
    ensures GetBearerToken(headers).Err? ==>
      reply == ErrorJson(StatusUnauthorized, "Refresh token required") && db.refreshTokens == old(db.refreshTokens)
    ensures GetBearerToken(headers).Ok? ==>
      reply == NoContent
      && db.refreshTokens == Revoke(old(db.refreshTokens), RevokeParams(GetBearerToken(headers).value, now))
  {
    var bearer := GetBearerToken(headers);
    if bearer.Err? {
      return ErrorJson(StatusUnauthorized, "Refresh token required");
    }
    var err := db.RevokeRefreshToken(RevokeParams(bearer.value, now));
    if err.Some? {
      return ErrorJson(StatusInternalServerError, "Failed to revoke token");
    }
    reply := NoContent;
  }

  /** A later write to the refresh-token store: a `CreateRefreshToken` call
      (refused when the token is taken) or a revoke by `revokeHandler`. */
  datatype StoreOp = Create(params: CreateRefreshTokenParams) | HandlerRevoke(token: string, at: Time)

  /** The store after the writes, in order. */
  function Replay(t: Table, ops: seq<StoreOp>): Table
    decreases |ops|
  {
    if ops == [] then t
    else
      var t' := match ops[0]
        case Create(params) => (match Insert(t, params) case Ok(t1) => t1 case Err(_) => t)
        case HandlerRevoke(token, at) => Revoke(t, RevokeParams(token, at));
      Replay(t', ops[1..])
  }

  predicate CreatesToken(ops: seq<StoreOp>, token: string) {
    exists i :: 0 <= i < |ops| && ops[i].Create? && ops[i].params.token == token
  }

  /** After the handler revokes a token, every later refresh with it is
      refused, at any time and whatever creates and revokes follow: a row
      it revoked stays revoked, and a token it found no row for stays
      unknown unless a later create adds it. */
  lemma {:induction false} RevokedTokenNeverRefreshes(t: Table, token: string, now: Time,
                                                      ops: seq<StoreOp>, later: Time)
    requires token in t || !CreatesToken(ops, token)
    ensures CheckRefreshToken(Lookup(Replay(Revoke(t, RevokeParams(token, now)), ops), token), later).Err?
  {
    var t1 := Revoke(t, RevokeParams(token, now));
    if token in t {
      ReplayKeepsRevoked(t1, token, ops);
    } else {
      ReplayKeepsMissing(t1, token, ops);
    }
  }

  lemma {:induction false} ReplayKeepsRevoked(t: Table, token: string, ops: seq<StoreOp>)
    requires token in t && t[token].revokedAt.valid
    ensures token in Replay(t, ops) && Replay(t, ops)[token].revokedAt.valid
    decreases |ops|
  {
    if ops != [] {
      match ops[0]
      case Create(params) =>
        RevokedStaysRevoked(t, token, params, RevokeParams(token, 0));
        var t' := match Insert(t, params) case Ok(t1) => t1 case Err(_) => t;
        ReplayKeepsRevoked(t', token, ops[1..]);
      case HandlerRevoke(other, at) =>
        RevokedStaysRevoked(t, token, CreateRefreshTokenParams(token, 0, 0, Nil, 0, NullTime(0, false)),
                            RevokeParams(other, at));
        ReplayKeepsRevoked(Revoke(t, RevokeParams(other, at)), token, ops[1..]);
    }
  }

  lemma {:induction false} ReplayKeepsMissing(t: Table, token: string, ops: seq<StoreOp>)
    requires token !in t && !CreatesToken(ops, token)
    ensures token !in Replay(t, ops)
    decreases |ops|
  {
    if ops != [] {
      assert !CreatesToken(ops[1..], token) by {
        forall i | 0 <= i < |ops[1..]| && ops[1..][i].Create?
          ensures ops[1..][i].params.token != token
        {
          assert ops[1..][i] == ops[i + 1];
        }
      }
      assert !(ops[0].Create? && ops[0].params.token == token);
      match ops[0]
      case Create(params) =>
        var t' := match Insert(t, params) case Ok(t1) => t1 case Err(_) => t;
        ReplayKeepsMissing(t', token, ops[1..]);
      case HandlerRevoke(other, at) =>
        ReplayKeepsMissing(Revoke(t, RevokeParams(other, at)), token, ops[1..]);
    }
  }
}

=== FILE: uuid.dfy ===
/** The two operations of `github.com/google/uuid` that the core uses:
    `UUID.String` and `uuid.Parse`. A UUID is 16 bytes. */
module Uuid {
  import opened Wrappers
  import opened GoStrings
  import Hex

  type UUID = s: seq<byte> | |s| == 16 witness seq(16, _ => 0)

  /** `uuid.Nil`, the all-zero UUID returned beside every error. */
  const Nil: UUID := seq(16, _ => 0)

  /** `UUID.String`: xxxxxxxx-xxxx-xxxx-xxxx-xxxxxxxxxxxx in lower-case
      hexadecimal, written position by position as `encodeHex` does: a dash at
      8, 13, 18 and 23, and elsewhere the high or low digit of the pair the
      position belongs to. */
  function ToString(u: UUID): (s: string)
    ensures |s| == 36 && IsAscii(s)
    ensures s[8] == s[13] == s[18] == s[23] == '-'
  {
    seq(36, k requires 0 <= k < 36 =>
      if k == 8 || k == 13 || k == 18 || k == 23 then '-'
      else
        var i := PairIndex(k);
        if k == DashedOffsets[i] then Hex.HexDigit(u[i] as int / 16) else Hex.HexDigit(u[i] as int % 16))
  }

  /** Where the 16 hexadecimal pairs sit in the 36-character form. */
  const DashedOffsets: seq<nat> := [0, 2, 4, 6, 9, 11, 14, 16, 19, 21, 24, 26, 28, 30, 32, 34]

  /** The pair a dashed-form position belongs to. */
  function PairIndex(k: nat): (i: nat)
    requires k < 36 && k !in {8, 13, 18, 23}
    ensures i < 16 && (DashedOffsets[i] == k || DashedOffsets[i] + 1 == k)
  {
    if k < 8 then k / 2
    else if k < 13 then 4 + (k - 9) / 2
    else if k < 18 then 6 + (k - 14) / 2
    else if k < 23 then 8 + (k - 19) / 2
    else 10 + (k - 24) / 2
  }

  /** The two digits of a pair are the high and low nibbles of its byte. */
  lemma PairValueParts(x1: byte, x2: byte, b: byte)
    requires PairValue(x1, x2) == Some(b)
    ensures NibbleOf(x1) == Some(b as int / 16) && NibbleOf(x2) == Some(b as int % 16)
  {
    var hi, lo := NibbleOf(x1).value, NibbleOf(x2).value;
    assert b as int == hi * 16 + lo;
  }

  /** A parsed pair, lowered, is the pair ToString writes for its byte. */
  lemma PairLowered(s: seq<byte>, u: UUID, i: nat)
    requires |s| == 36 && i < 16
    requires PairValue(s[DashedOffsets[i]], s[DashedOffsets[i] + 1]) == Some(u[i])
    ensures LowerByte(s[DashedOffsets[i]]) == ToString(u)[DashedOffsets[i]] as int as byte
    ensures LowerByte(s[DashedOffsets[i] + 1]) == ToString(u)[DashedOffsets[i] + 1] as int as byte
  {
    ToStringAt(u, i);
    var x1, x2 := s[DashedOffsets[i]], s[DashedOffsets[i] + 1];
    PairValueParts(x1, x2, u[i]);
    NibbleLowered(x1, u[i] as int / 16);
    NibbleLowered(x2, u[i] as int % 16);
  }

  /** Where the 16 pairs sit in the 32-character form without dashes. */
  const PlainOffsets: seq<nat> := [0, 2, 4, 6, 8, 10, 12, 14, 16, 18, 20, 22, 24, 26, 28, 30]

  const Dash: byte := 45

  /** The value of a hexadecimal digit byte of either case (the `xvalues` table). */
  function NibbleOf(b: byte): Option<int> {
    if b < 128 then Hex.HexValue(b as int as char) else None
  }

  /** `xtob`: two hexadecimal digit bytes to the byte they spell. */
  function PairValue(x1: byte, x2: byte): (r: Option<byte>) {
    match (NibbleOf(x1), NibbleOf(x2))
    case (Some(hi), Some(lo)) =>
      assert 0 <= hi < 16 && 0 <= lo < 16;
      Some((hi * 16 + lo) as byte)
    case _ => None
  }

  /** Decodes the pairs starting at each offset, in order. */
  function DecodePairs(s: seq<byte>, offsets: seq<nat>): (r: Option<seq<byte>>)
    requires forall j :: 0 <= j < |offsets| ==> offsets[j] + 1 < |s|
    ensures r.Some? ==> |r.value| == |offsets|
  {
    if offsets == [] then Some([])
    else
      match (PairValue(s[offsets[0]], s[offsets[0] + 1]), DecodePairs(s, offsets[1..]))
      case (Some(b), Some(rest)) => Some([b] + rest)
      case _ => None
  }

  /** The 36-byte form: dashes at 8, 13, 18 and 23, hexadecimal pairs elsewhere.
      Only the first 36 bytes are read. */
  function ParseDashed(s: seq<byte>): Option<UUID>
    requires |s| >= 36
  {
    if s[8] != Dash || s[13] != Dash || s[18] != Dash || s[23] != Dash then None
    else
      match DecodePairs(s, DashedOffsets)
      case Some(bs) => Some(bs)
      case None => None
  }

  /** ASCII case-insensitive comparison with "urn:uuid:" (`strings.EqualFold`;
      none of its letters has a non-ASCII case partner). */
  predicate IsUrnPrefix(s: seq<byte>)
    requires |s| == 9
  {
    forall k :: 0 <= k < 9 ==>
      (if 65 <= s[k] <= 90 then s[k] + 32 else s[k]) == "urn:uuid:"[k] as int as byte
  }

  /** `uuid.Parse` on the bytes of a string. Four layouts, chosen by length:
      36 (dashed), 45 ("urn:uuid:" then dashed), 38 (one byte, dashed, one byte:
      the braces themselves are not checked) and 32 (pairs only). */
  function Parse(s: seq<byte>): (r: Option<UUID>)
    ensures r.Some? ==> |s| in {32, 36, 38, 45}
  {
    if |s| == 36 then ParseDashed(s)
    else if |s| == 45 then (if IsUrnPrefix(s[..9]) then ParseDashed(s[9..]) else None)
    else if |s| == 38 then ParseDashed(s[1..])
    else if |s| == 32 then
      match DecodePairs(s, PlainOffsets)
      case Some(bs) => Some(bs)
      case None => None
    else None
  }

  /** `uuid.Parse(s)` for a Go string `s`: it parses only when `s` takes 32,
      36, 38 or 45 bytes. */
  function ParseString(s: string): (r: Option<UUID>)
    ensures r.Some? ==> ByteLen(s) in {32, 36, 38, 45}
  {
    Parse(Utf8(s))
  }

  /** The characters of ToString at the i-th pair offset spell byte i. */
  lemma ToStringAt(u: UUID, i: nat)
    requires i < 16
    ensures ToString(u)[DashedOffsets[i]] == Hex.HexDigit(u[i] as int / 16)
    ensures ToString(u)[DashedOffsets[i] + 1] == Hex.HexDigit(u[i] as int % 16)
  {
    assert PairIndex(DashedOffsets[i]) == i && PairIndex(DashedOffsets[i] + 1) == i;
  }

  /** When every pair decodes to the matching byte of `v`, DecodePairs gives `v`. */
  lemma {:induction false} DecodePairsOf(s: seq<byte>, offsets: seq<nat>, v: seq<byte>)
    requires forall j :: 0 <= j < |offsets| ==> offsets[j] + 1 < |s|
    requires |v| == |offsets|
    requires forall j :: 0 <= j < |offsets| ==> PairValue(s[offsets[j]], s[offsets[j] + 1]) == Some(v[j])
    ensures DecodePairs(s, offsets) == Some(v)
  {
    if offsets != [] {
      DecodePairsOf(s, offsets[1..], v[1..]);
      assert v == [v[0]] + v[1..];
    }
  }

  /** Parsing the string form of a UUID gives the UUID back. */
  lemma ParseToString(u: UUID)
    ensures ParseString(ToString(u)) == Some(u)
  {
    var t := ToString(u);
    Utf8OfAscii(t);
    var bs := Utf8(t);
    assert bs[8] == bs[13] == bs[18] == bs[23] == Dash;
    forall j | 0 <= j < 16
      ensures PairValue(bs[DashedOffsets[j]], bs[DashedOffsets[j] + 1]) == Some(u[j])
    {
      PairOfToString(u, j);
    }
    DashedParses(bs, u);
  }

  /** Dashes in place and every pair spelling its byte: the dashed form parses. */
  lemma DashedParses(bs: seq<byte>, u: UUID)
    requires |bs| == 36 && bs[8] == bs[13] == bs[18] == bs[23] == Dash
    requires forall j :: 0 <= j < 16 ==> PairValue(bs[DashedOffsets[j]], bs[DashedOffsets[j] + 1]) == Some(u[j])
    ensures Parse(bs) == Some(u)
  {
    DecodePairsOf(bs, DashedOffsets, u);
  }

  /** Pair j of the bytes of ToString(u) decodes to byte j of u. */
  lemma PairOfToString(u: UUID, j: nat)
    requires j < 16
    ensures |Utf8(ToString(u))| == 36
    ensures PairValue(Utf8(ToString(u))[DashedOffsets[j]], Utf8(ToString(u))[DashedOffsets[j] + 1]) == Some(u[j])
  {
    var s := ToString(u);
    Utf8OfAscii(s);
    var bs := Utf8(s);
    ToStringAt(u, j);
    var hi, lo := u[j] as int / 16, u[j] as int % 16;
    Hex.HexValueOfDigit(hi);
    Hex.HexValueOfDigit(lo);
    assert bs[DashedOffsets[j]] as int as char == Hex.HexDigit(hi);
    assert bs[DashedOffsets[j] + 1] as int as char == Hex.HexDigit(lo);
  }

  /** A byte with ASCII upper-case letters lowered. */
  function LowerByte(b: byte): byte {
    if 65 <= b <= 90 then b + 32 else b
  }

  function LowerBytes(s: seq<byte>): (r: seq<byte>)
    ensures |r| == |s| && forall i :: 0 <= i < |s| ==> r[i] == LowerByte(s[i])
  {
    seq(|s|, i requires 0 <= i < |s| => LowerByte(s[i]))
  }

  /** A digit byte, lowered, is the digit `encoding/hex` writes for its value. */
  lemma NibbleLowered(b: byte, d: int)
    requires NibbleOf(b) == Some(d)
    ensures 0 <= d < 16 && LowerByte(b) == Hex.HexDigit(d) as int as byte
  {
  }

  lemma {:induction false} DecodePairsValues(s: seq<byte>, offsets: seq<nat>, v: seq<byte>)
    requires forall j :: 0 <= j < |offsets| ==> offsets[j] + 1 < |s|
    requires DecodePairs(s, offsets) == Some(v)
    ensures |v| == |offsets|
    ensures forall j :: 0 <= j < |offsets| ==> PairValue(s[offsets[j]], s[offsets[j] + 1]) == Some(v[j])
  {
    if offsets != [] {
      DecodePairsValues(s, offsets[1..], v[1..]);
    }
  }

  /** The converse of ParseToString for the 36-byte form: whatever parses to
      `u` is the text of `u` up to the case of its hexadecimal letters. */
  lemma ParsedIsToString(s: seq<byte>, u: UUID)
    requires |s| == 36 && Parse(s) == Some(u)
    ensures LowerBytes(s) == Utf8(ToString(u))
  {
    assert s[8] == s[13] == s[18] == s[23] == Dash;
    DecodePairsValues(s, DashedOffsets, u);
    DashedIsToString(s, u);
  }

  lemma DashedIsToString(s: seq<byte>, u: UUID)
    requires |s| == 36 && s[8] == s[13] == s[18] == s[23] == Dash
    requires forall j :: 0 <= j < 16 ==> PairValue(s[DashedOffsets[j]], s[DashedOffsets[j] + 1]) == Some(u[j])
    ensures LowerBytes(s) == Utf8(ToString(u))
  {
    var t := ToString(u);
    Utf8OfAscii(t);
    forall k | 0 <= k < 36 ensures LowerBytes(s)[k] == Utf8(t)[k] {
      if k == 8 || k == 13 || k == 18 || k == 23 {
        assert t[k] == '-';
      } else {
        PairLowered(s, u, PairIndex(k));
      }
    }
  }
}

=== FILE: wrappers.dfy ===
/** Optional values and error-or-value results, standing in for Go's
    `(value, error)` return pairs and nullable values. */
module Wrappers {

  datatype Option<+T> = None | Some(value: T)

  datatype Result<+T, +E> = Ok(value: T) | Err(error: E)
}
